=== FILE: README.md ===
# clouder-player: playback-state reconciliation

A Dafny model of the part of the clouder-player terminal remote control that
decides what the player currently holds. Every five seconds the player asks
Spotify for the current playback. It then replaces its `PlayerState` wholesale:

- it clears the state when nothing plays;
- it keeps the state when the same track still plays;
- otherwise it builds a new state from the playing item.

The playlist part of a new state comes from `get_playlist_data`. That function
classifies the playing playlist against a "clouder week" document. The
document groups one `base` playlist with its `extra` playlists.

Alongside this, the model covers the caching guards behind the `current_track`
and `current_playlist` properties, the placeholder defaulting of the three
display fields, and the keystroke accumulator.

Modules:

- `Wrappers`: `Option` and `Fetched`. `Fetched` is a value paired with the
  arguments passed to an external service while computing it. "No lookup is
  made" is stated as an empty call list.
- `Dicts`: Python dict comprehensions, which are last-wins on a repeated key.
  One generic definition serves the artist map and the extras map.
- `Uri`: `uri.split(":")[-1]`.
- `State`: playback payload, clouder week documents, `PlayerState`, and the
  coherence invariant of its playlist fields.
- `Classifier`: `get_playlist_data`, with the lookup
  `get_sp_clouder_week_by_pl_id` passed in as a function
  `string -> Option<ClouderWeek>`.
- `Tracker`: `is_same_track`, `clear_player_state`, one tick of
  `update_player_state`, and the loop as a run over a sequence of observations.
- `Screen`: `get_track_info`, `current_track`, `current_playlist`,
  `get_current_track_info`, `handle_input`.

External calls become parameters:

- `sp.current_playback()` is an observation `Option<Playback>`; `None` stands
  for a falsy payload.
- `sp.track` and `sp.playlist` are functions.
- The MongoDB lookup is a function.

Document values are modelled as `Field`: no such key, `null`, or a string.
Reading with `get` turns both an absent key and `null` into `None`. Indexing
with `[...]` raises only on an absent key.

Python crash paths become preconditions (`ClassifySafe`, `TickSafe`, `RunSafe`,
`PlaylistSafe`). Each one excludes only the inputs on which the modelled code
raises:

- a null `context`;
- in the base branch, an `sp_playlists` entry with no `clouder_type` key;
- in the base branch, an extra entry with no `clouder_name` key.

A `null` in either key does not raise. A `null` clouder type is simply not
`"extra"`, and a `null` clouder name becomes the extras key `None`.

Facts about the code that shape the model:

- The loop at main.py:224-245 has no exception handler, so an exception ends
  the task. The model has no failure path: the raising inputs are outside the
  preconditions.
- The code reads the `clouder_type` values `"base"` and `"extra"` and builds no
  overflow playlist id. The extras hold every `extra` entry of the week,
  and the last one wins on a shared name.
- The dataclass annotates `track_id` and `playlist_id` as `int`. The values
  compared and stored are strings, and the model uses strings.

## Model

| member | source | states |
|---|---|---|
| Dicts.Comprehension | main.py:210-213 | a dict comprehension holds a key for every kept element, and each key maps to the value of the last kept element producing it |
| Dicts.ComprehensionKeys | main.py:242 | the comprehension's key set is exactly the set of keys of the kept elements |
| Uri.LastSegment | main.py:187 | `split(":")[-1]` contains no `:` and is no longer than the URI |
| Uri.LastSegmentIsSuffix | main.py:187 | the last segment is a suffix of the URI, preceded by a `:` unless it is the whole URI |
| Uri.LastSegmentUnique | main.py:187 | any suffix with those three properties is the last segment |
| Uri.LastSegmentSplits | main.py:187 | the URI is a prefix that is empty or ends in `:`, followed by the last segment |
| Classifier.PlaylistId | main.py:187 | the playlist id taken from a context URI never contains `:` |
| Classifier.Find | main.py:203 | reading an id from `sp_playlists` finds nothing exactly when no pair has that id; otherwise it returns the value of the first pair with that id |
| Classifier.FindEntry | main.py:203 | an entry is found exactly when the document has `sp_playlists` and it holds a pair for the id, and the entry found is stored under that id |
| Classifier.ExtraPlaylistsContents | main.py:210-213 | every extra entry's clouder name (`None` when null) is a key of the extras; every key names an extra entry, maps to its id, and no later extra entry shares the name |
| Classifier.GetPlaylistData | main.py:182-222 | the four outcomes: non-playlist context gives all defaults and no lookup; the held playlist is reused verbatim with no lookup; otherwise one lookup for this id, and a missing record or entry gives only the id; a found entry gives `is_clouder` true, its `sp_name`, base iff `clouder_type == "base"`, and empty extras unless base |
| Classifier.BaseExtras | main.py:207-214 | for a base playlist, the extras hold exactly the week's extra members keyed by clouder name, the last one winning |
| Classifier.GetPlaylistDataCoherent | main.py:182-222 | from a coherent held state, classification yields coherent playlist fields (no id means all defaults; unclassified means id only; classified means marked true, base known, extras present and empty unless base) |
| Tracker.ArtistMap | main.py:242 | the artists map has exactly the item's artist ids as keys, each mapped to the name of the last artist with that id |
| Tracker.Tick | main.py:229-244 | no playback clears the state; the held track id leaves the state unchanged with no lookup; a new track gives a state with the item's id, name, and artist ids as keys each mapped to a name from the item, whose playlist fields and lookups are exactly those of the classification |
| Tracker.NonPlaylistContextClears | main.py:183-185 | a new track in a non-playlist context gets every playlist field at its dataclass default, with no lookup |
| Tracker.SamePlaylistReused | main.py:190-197 | a new track in the held playlist copies the held playlist fields and does not consult the lookup |
| Tracker.TickCoherent | main.py:237-243 | a tick maps a coherent held state to a coherent state |
| Tracker.TickIdempotent | main.py:234-235 | a second tick on the same observation changes nothing and looks nothing up |
| Tracker.Run | main.py:224-245 | the loop over n observations makes at most n lookups |
| Tracker.RunFollowsLastObservation | main.py:229-244 | after the loop the state is cleared if the last observation reported no playback, and otherwise is a state for the last observed item |
| Tracker.RunHeldTrack | main.py:225-235 | while every observation reports the held track, the loop keeps the state and makes no lookup |
| Tracker.RunSameTrack | main.py:225-245 | over observations all reporting one track, the final state is the first tick's state and at most one lookup is made |
| Screen.JoinComma | main.py:260 | joining no names gives the empty string, one name gives that name, and n > 0 names give a string as long as all names plus two characters per separator |
| Screen.JoinCommaAppend | main.py:260 | joining a concatenation of two non-empty lists joins the two joins with one more `", "` |
| Screen.GetTrackInfo | main.py:256-262 | the track info carries the id it was requested for, the fetched name, and the fetched artist names joined by `", "` |
| Screen.CurrentTrack | main.py:140-154 | nothing or a non-track playing gives no info; otherwise the info is for the playing id, the cached info is reused with no fetch when its id matches, and exactly one fetch for the id is made when it does not |
| Screen.CurrentTrackStable | main.py:150-152 | asking again with the same playback makes no further fetch |
| Screen.CurrentPlaylist | main.py:156-173 | a non-playlist context gives no playlist; the cached playlist is reused with no fetch when its URI matches the context URI; otherwise one fetch for the URI |
| Screen.CurrentPlaylistStable | main.py:167-171 | when the fetched playlist reports the context's URI, asking again for the same playback makes no further fetch |
| Screen.CurrentPlaylistRefetches | main.py:167-171 | when the fetched playlist reports another URI, a cache filled by that fetch never matches, so each call fetches again |
| Screen.GetCurrentTrackInfo | main.py:269-285 | the caches left behind are those of `current_track` and `current_playlist`; each display field shows the fetched value when there is one and otherwise "No Track", "No Artists" or "No playlist"; a playing track is shown by its own id, and a playlist context always yields a playlist |
| Screen.NothingPlayingShowsPlaceholders | main.py:270-274 | with nothing playing the display is the three placeholders and both caches are emptied |
| Screen.CurrentTrackKeepsCacheFromFetch | main.py:148-152 | `current_track` only ever stores what `get_track_info` returns, so a cache filled that way stays so |
| Screen.CurrentPlaylistKeepsCacheFromFetch | main.py:164-171 | `current_playlist` keeps a cache filled by `get_playlist_info`, when fetching the URI a fetched playlist reports gives that playlist again |
| Screen.WarmCacheShowsColdDisplay | main.py:269-285 | when each cache holds what its fetch gives for the cache's own id or URI, the display equals the display built from empty caches |
| Screen.StalePlaylistShown | main.py:166-171 | when `sp.playlist("A")` reports URI `"B"`, the playlist cached in context `"A"` is reused in a later context `"B"`, and its name is shown where an empty cache would show the name of `"B"` |
| Screen.PlayingTrackShown | main.py:276-280 | with a track cache `get_track_info` filled, a playing track's display name is the name fetched for the playing id |
| Screen.HandleInput | main.py:287-290 | a one-character key is appended to the input and echoed as "<key> pressed"; any other key changes nothing |
| Screen.HandleKeysTyped | main.py:287-290 | after a run of keys, the input has grown by exactly the one-character keys, in order |

## Left out

- The Spotify client (`create_sp`, OAuth, `sp.current_playback`, `sp.track`, `sp.playlist`) and all of sp_adapter.py: these are network calls. Their results are parameters.
- mongo_adapter.py: environment variables, connection URL building, ping and `find_one` are I/O. The lookup is a function parameter. A MongoDB document is taken to be truthy, since it always has `_id`.
- The urwid interface (`create_interface`, `set_text`, `MainLoop`, `run`, `main`): this is UI. The status line is kept only as the `status` field of `Screen.Input`.
- The asyncio scheduling (`sleep(5)`, `ensure_future`) and the `update_track` loop: one tick is a pure step, and the loop is a finite run of ticks. The "No track" fallbacks in `update_track` cannot fire, because `get_current_track_info` always fills all three keys.
- The `lru_cache` memoisation of `get_track_info` and `get_playlist_info`: this is library behaviour, and the model makes a fresh call on every cache miss.
- Logging: it has no effect on the state.
- `Command` (main.py:30-35) is declared but never dispatched, so no skip, seek, like or move-to-playlist command exists in this code.
- Crash paths: a null `item` is excluded by the `Playback` type. A null context and missing `clouder_type`/`clouder_name` keys are preconditions. A non-dict `sp_playlists` value is not represented. Document values other than strings and `null` under the three keys read are not represented. A Python dict cannot repeat an id in `sp_playlists`; the model does not enforce this, and it reads the first pair with an id. Exceptions raised by the lookup are not modelled.
- Screen.CurrentPlaylistKeepsCacheFromFetch: it assumes that fetching the URI a fetched playlist reports gives the same playlist. The code does not check this. `Screen.StalePlaylistShown` shows what happens without it.
- Screen.WarmCacheShowsColdDisplay: it holds only for caches that hold their fetch's result for their own key. A playlist fetched for one URI that reports another leaves a cache that a later context with the reported URI reuses, so a stale name is shown (`Screen.StalePlaylistShown`).
- Tracker.Tick: its contract states only that each artist value is a name from the item. `Tracker.ArtistMap` states the stronger last-wins property.

=== FILE: classifier.dfy ===
/** `SpotifyUI.get_playlist_data`: derive the playlist fields of a new
    `PlayerState` from the playback context, the held state and the clouder
    week the external lookup returns for the playlist id. */
module Classifier {
  import opened Wrappers
  import opened State
  import Uri
  import Dicts

  /** The external lookup `get_sp_clouder_week_by_pl_id`: the clouder week
      whose `sp_playlists` mentions the id, if any. */
  type Lookup = string -> Option<ClouderWeek>

  /** The playlist id of a context: its URI after the last `:`. */
  function PlaylistId(c: Context): (id: string)
    ensures ':' !in id
  {
    Uri.LastSegment(c.uri)
  }

  /** The held state already describes playlist `id`. */
  predicate Reuses(held: Option<PlayerState>, id: string) {
    held.Some? && held.value.playlist.playlistId == Some(id)
  }

  /** Reading key `id` of a dict given as its (key, value) pairs: the value
      of the first pair with that key, or nothing when no pair has it. */
  function Find(entries: seq<(string, ClouderPlaylist)>, id: string): (r: Option<ClouderPlaylist>)
    ensures r.None? <==> forall i :: 0 <= i < |entries| ==> entries[i].0 != id
    ensures r.Some? ==> exists i :: && 0 <= i < |entries| && entries[i] == (id, r.value)
                                    && forall j :: 0 <= j < i ==> entries[j].0 != id
  {
    if |entries| == 0 then None
    else if entries[0].0 == id then Some(entries[0].1)
    else
      var r := Find(entries[1..], id);
      assert forall i :: 0 < i < |entries| ==> entries[i] == entries[1..][i - 1];
      assert r.Some? ==> exists i :: && 0 <= i < |entries| && entries[i] == (id, r.value)
                                    && forall j :: 0 <= j < i ==> entries[j].0 != id by {
        if r.Some? {
          var i :| && 0 <= i < |entries[1..]| && entries[1..][i] == (id, r.value)
                   && forall j :: 0 <= j < i ==> entries[1..][j].0 != id;
          assert entries[i + 1] == (id, r.value);
          assert forall j :: 0 <= j < i + 1 ==> entries[j].0 != id by {
            forall j | 0 <= j < i + 1
              ensures entries[j].0 != id
            {
              if j > 0 {
                assert entries[j] == entries[1..][j - 1];
              }
            }
          }
        }
      }
      r
  }

  /** Reading `id` from the week's `sp_playlists`, a missing `sp_playlists`
      reading as an empty dict: an entry is found exactly when the dict has
      a pair for `id`, and it is a value stored under `id`. */
  function FindEntry(week: ClouderWeek, id: string): (r: Option<ClouderPlaylist>)
    ensures r.Some? <==> && week.spPlaylists.Some?
                         && exists i :: 0 <= i < |week.spPlaylists.value| && week.spPlaylists.value[i].0 == id
    ensures r.Some? ==> (id, r.value) in week.spPlaylists.value
  {
    match week.spPlaylists
    case None => None
    case Some(entries) => Find(entries, id)
  }

  /** The week classifies `id`: it has a truthy entry for it. */
  predicate Mentions(week: ClouderWeek, id: string) {
    var e := FindEntry(week, id);
    e.Some? && e.value.Truthy()
  }

  /** The entry's `clouder_type` is the string `"extra"`. */
  predicate IsExtra(e: (string, ClouderPlaylist)) {
    e.1.clouderType == Str("extra")
  }

  /** Building the extras reads `clouder_type` of every entry and
      `clouder_name` of every extra one by indexing, which raises on an
      absent key (a `null` value is read without raising). */
  predicate ExtrasIndexable(entries: seq<(string, ClouderPlaylist)>) {
    forall i :: 0 <= i < |entries| ==>
      !entries[i].1.clouderType.Missing? && (IsExtra(entries[i]) ==> !entries[i].1.clouderName.Missing?)
  }

  /** The extras of a base playlist: a dict from the clouder name of each
      extra entry (`None` for a null name) to that entry's playlist id,
      built in the order of `sp_playlists`. */
  function ExtraPlaylists(entries: seq<(string, ClouderPlaylist)>): map<Option<string>, string>
    requires ExtrasIndexable(entries)
  {
    Dicts.Comprehension(entries, IsExtra, (e: (string, ClouderPlaylist)) => e.1.clouderName.Get(),
                        (e: (string, ClouderPlaylist)) => e.0)
  }

  /** Every entry `name -> id` of the extras is an extra member of the week
      called `name` with id `id`, and no later extra member has that name;
      every extra member's name is a key. */
  lemma ExtraPlaylistsContents(entries: seq<(string, ClouderPlaylist)>)
    requires ExtrasIndexable(entries)
    ensures forall i :: 0 <= i < |entries| && IsExtra(entries[i]) ==>
              entries[i].1.clouderName.Get() in ExtraPlaylists(entries)
    ensures forall name :: name in ExtraPlaylists(entries) ==>
              exists i :: && 0 <= i < |entries| && IsExtra(entries[i])
                          && entries[i].1.clouderName.Get() == name
                          && ExtraPlaylists(entries)[name] == entries[i].0
                          && forall j :: i < j < |entries| && IsExtra(entries[j]) ==>
                                           entries[j].1.clouderName.Get() != name
  {
    var key := (e: (string, ClouderPlaylist)) => e.1.clouderName.Get();
    var m := ExtraPlaylists(entries);
    forall name | name in m
      ensures exists i :: && 0 <= i < |entries| && IsExtra(entries[i])
                          && entries[i].1.clouderName.Get() == name
                          && m[name] == entries[i].0
                          && forall j :: i < j < |entries| && IsExtra(entries[j]) ==>
                                           entries[j].1.clouderName.Get() != name
    {
      var i :| Dicts.LastKept(entries, IsExtra, key, name, i) && m[name] == entries[i].0;
    }
  }

  /** `get_playlist_data` runs on this playback without raising: the
      context is present, and when the base branch builds the extras, every
      entry it indexes has the keys it reads. */
  predicate ClassifySafe(pb: Playback, held: Option<PlayerState>, lookup: Lookup) {
    && pb.context.Some?
    && var id := PlaylistId(pb.context.value);
       (pb.context.value.kind == "playlist" && !Reuses(held, id) && lookup(id).Some? ==>
          var week := lookup(id).value;
          var e := FindEntry(week, id);
          (e.Some? && e.value.Truthy() && e.value.clouderType == Str("base") ==>
             ExtrasIndexable(week.spPlaylists.value)))
  }

  function GetPlaylistData(pb: Playback, held: Option<PlayerState>, lookup: Lookup): (r: Fetched<PlaylistFields>)
    requires ClassifySafe(pb, held, lookup)
    // a non-playlist context gives no playlist data at all
    ensures pb.context.value.kind != "playlist" ==> r == Fetched(NoPlaylist, [])
    // the held playlist is reused verbatim, without asking the lookup
    ensures pb.context.value.kind == "playlist" && Reuses(held, PlaylistId(pb.context.value)) ==>
              r == Fetched(held.value.playlist, [])
    // otherwise the lookup is asked exactly once, for this id
    ensures pb.context.value.kind == "playlist" && !Reuses(held, PlaylistId(pb.context.value)) ==>
              var id := PlaylistId(pb.context.value);
              && r.calls == [id]
              && r.value.playlistId == Some(id)
              && (lookup(id).None? || !Mentions(lookup(id).value, id) ==>
                    r.value == PlaylistFields(Some(id), None, None, None, None))
              && (lookup(id).Some? && Mentions(lookup(id).value, id) ==>
                    var e := FindEntry(lookup(id).value, id).value;
                    && r.value.playlistName == e.spName.Get()
                    && r.value.isClouder == Some(true)
                    && (r.value.isBasePlaylist == Some(true) <==> e.clouderType == Str("base"))
                    && r.value.isBasePlaylist.Some?
                    && r.value.extraPlaylists.Some?
                    && (r.value.isBasePlaylist == Some(false) ==> r.value.extraPlaylists == Some(map[])))
  {
    var ctx := pb.context.value;
    if ctx.kind != "playlist" then Fetched(NoPlaylist, [])
    else
      var id := PlaylistId(ctx);
      if Reuses(held, id) then
        var p := held.value.playlist;
        Fetched(PlaylistFields(Some(id), p.playlistName, p.isClouder, p.isBasePlaylist, p.extraPlaylists), [])
      else
        var week := lookup(id);
        if week.None? || !Mentions(week.value, id) then
          Fetched(PlaylistFields(Some(id), None, None, None, None), [id])
        else
          var e := FindEntry(week.value, id).value;
          var isBase := e.clouderType == Str("base");
          var extras := if isBase then ExtraPlaylists(week.value.spPlaylists.value) else map[];
          Fetched(PlaylistFields(Some(id), e.spName.Get(), Some(true), Some(isBase), Some(extras)), [id])
  }

  /** For a base playlist, the extras are exactly the week's extra members,
      keyed by clouder name, the last such member winning a shared name. */
  lemma BaseExtras(pb: Playback, held: Option<PlayerState>, lookup: Lookup)
    requires ClassifySafe(pb, held, lookup)
    requires GetPlaylistData(pb, held, lookup).calls != []
    requires GetPlaylistData(pb, held, lookup).value.isBasePlaylist == Some(true)
    ensures var id := PlaylistId(pb.context.value);
            var entries := lookup(id).value.spPlaylists.value;
            var extras := GetPlaylistData(pb, held, lookup).value.extraPlaylists.value;
            && (forall i :: 0 <= i < |entries| && IsExtra(entries[i]) ==> entries[i].1.clouderName.Get() in extras)
            && (forall name :: name in extras ==>
                  exists i :: && 0 <= i < |entries| && IsExtra(entries[i])
                              && entries[i].1.clouderName.Get() == name
                              && extras[name] == entries[i].0
                              && forall j :: i < j < |entries| && IsExtra(entries[j]) ==>
                                               entries[j].1.clouderName.Get() != name)
  {
    var id := PlaylistId(pb.context.value);
    ExtraPlaylistsContents(lookup(id).value.spPlaylists.value);
  }

  /** Classification keeps the playlist fields coherent. */
  lemma GetPlaylistDataCoherent(pb: Playback, held: Option<PlayerState>, lookup: Lookup)
    requires ClassifySafe(pb, held, lookup)
    requires CoherentState(held)
    ensures Coherent(GetPlaylistData(pb, held, lookup).value)
  {
  }
}

=== FILE: dicts.dfy ===
/** Python dict comprehensions `{key(x): val(x) for x in xs if keep(x)}`.
    Building a dict from a sequence is last-wins: a key produced twice keeps
    the value of the later element. */
module Dicts {

  /** `i` is the last position of `xs` that is kept and produces key `k`. */
  ghost predicate LastKept<T, K>(xs: seq<T>, keep: T -> bool, key: T -> K, k: K, i: int)
  {
    && 0 <= i < |xs|
    && keep(xs[i])
    && key(xs[i]) == k
    && forall j :: i < j < |xs| && keep(xs[j]) ==> key(xs[j]) != k
  }

  /** The dict the comprehension evaluates to. Every kept element's key is
      present, and every entry holds the value of the last kept element with
      that key. */
  function Comprehension<T, K(==), V>(xs: seq<T>, keep: T -> bool, key: T -> K, val: T -> V): (m: map<K, V>)
    ensures forall i :: 0 <= i < |xs| && keep(xs[i]) ==> key(xs[i]) in m
    ensures forall k :: k in m ==> exists i :: LastKept(xs, keep, key, k, i) && m[k] == val(xs[i])
    decreases |xs|
  {
    if |xs| == 0 then map[]
    else
      var init := Comprehension(xs[..|xs| - 1], keep, key, val);
      var x := xs[|xs| - 1];
      var m := if keep(x) then init[key(x) := val(x)] else init;
      assert forall i :: 0 <= i < |xs| - 1 ==> xs[..|xs| - 1][i] == xs[i];
      assert forall k :: k in m ==> exists i :: LastKept(xs, keep, key, k, i) && m[k] == val(xs[i]) by {
        forall k | k in m
          ensures exists i :: LastKept(xs, keep, key, k, i) && m[k] == val(xs[i])
        {
          if keep(x) && key(x) == k {
            assert LastKept(xs, keep, key, k, |xs| - 1);
          } else {
            var i :| LastKept(xs[..|xs| - 1], keep, key, k, i) && init[k] == val(xs[..|xs| - 1][i]);
            assert LastKept(xs, keep, key, k, i);
          }
        }
      }
      m
  }

  /** The key set is exactly the keys of the kept elements. */
  lemma ComprehensionKeys<T, K, V>(xs: seq<T>, keep: T -> bool, key: T -> K, val: T -> V)
    ensures Comprehension(xs, keep, key, val).Keys == set i | 0 <= i < |xs| && keep(xs[i]) :: key(xs[i])
  {
    var m := Comprehension(xs, keep, key, val);
    forall k | k in m
      ensures k in set i | 0 <= i < |xs| && keep(xs[i]) :: key(xs[i])
    {
      var i :| LastKept(xs, keep, key, k, i) && m[k] == val(xs[i]);
    }
  }
}

=== FILE: screen.dfy ===
/** What the terminal shows: the cached track and playlist lookups behind the
    `current_track` and `current_playlist` properties, the text of the three
    display fields, and the keystroke handler. */
module Screen {
  import opened Wrappers
  import opened State

  /** What `sp.track(id)` contributes: the track name and its artists' names. */
  datatype TrackDetails = TrackDetails(name: string, artistNames: seq<string>)

  /** The dict `get_track_info` builds: `{"id", "name", "artists"}`. */
  datatype TrackInfo = TrackInfo(id: string, name: string, artists: string)

  /** The part of `sp.playlist(uri)` the player reads. */
  datatype PlaylistInfo = PlaylistInfo(uri: string, name: string)

  /** The sum of the lengths of `names`. */
  function TotalLength(names: seq<string>): nat
    decreases |names|
  {
    if |names| == 0 then 0 else |names[0]| + TotalLength(names[1..])
  }

  /** The names joined with `", "` between neighbours: every name in full,
      plus two characters per separator. */
  function JoinComma(names: seq<string>): (s: string)
    ensures |names| == 0 ==> s == ""
    ensures |names| == 1 ==> s == names[0]
    ensures |names| > 0 ==> |s| == TotalLength(names) + 2 * (|names| - 1)
    decreases |names|
  {
    if |names| == 0 then ""
    else if |names| == 1 then names[0]
    else names[0] + ", " + JoinComma(names[1..])
  }

  /** Joining a concatenation joins the two parts with one more separator. */
  lemma {:induction false} JoinCommaAppend(a: seq<string>, b: seq<string>)
    requires |a| > 0 && |b| > 0
    ensures JoinComma(a + b) == JoinComma(a) + ", " + JoinComma(b)
    decreases |a|
  {
    if |a| == 1 {
      assert (a + b)[1..] == b;
    } else {
      JoinCommaAppend(a[1..], b);
      assert (a + b)[1..] == a[1..] + b;
    }
  }

  /** `get_track_info`: the info is keyed by the id it was asked for and
      carries the fetched name and the fetched artist names, joined. */
  function GetTrackInfo(id: string, fetch: string -> TrackDetails): (r: TrackInfo)
    ensures r.id == id
    ensures r.name == fetch(id).name
    ensures r.artists == JoinComma(fetch(id).artistNames)
  {
    TrackInfo(id, fetch(id).name, JoinComma(fetch(id).artistNames))
  }

  predicate PlaysTrack(obs: Option<Playback>) {
    obs.Some? && obs.value.playingType == Some("track")
  }

  /** The `current_track` property: the cached info is kept while the
      playing item's id is unchanged and refetched when it changes; `calls`
      lists the ids passed to `get_track_info`. */
  function CurrentTrack(cached: Option<TrackInfo>, obs: Option<Playback>, fetch: string -> TrackDetails): (r: Fetched<Option<TrackInfo>>)
    ensures !PlaysTrack(obs) ==> r == Fetched(None, [])
    ensures PlaysTrack(obs) ==> r.value.Some? && r.value.value.id == obs.value.item.id
    ensures PlaysTrack(obs) && cached.Some? && cached.value.id == obs.value.item.id ==> r == Fetched(cached, [])
    ensures PlaysTrack(obs) && !(cached.Some? && cached.value.id == obs.value.item.id) ==>
              r == Fetched(Some(GetTrackInfo(obs.value.item.id, fetch)), [obs.value.item.id])
  {
    if !PlaysTrack(obs) then Fetched(None, [])
    else
      var id := obs.value.item.id;
      if cached.None? || cached.value.id != id then Fetched(Some(GetTrackInfo(id, fetch)), [id])
      else Fetched(cached, [])
  }

  /** Asking again for the same playback fetches nothing more. */
  lemma CurrentTrackStable(cached: Option<TrackInfo>, obs: Option<Playback>, fetch: string -> TrackDetails)
    ensures var first := CurrentTrack(cached, obs, fetch);
            CurrentTrack(first.value, obs, fetch) == Fetched(first.value, [])
  {
  }

  /** `current_playlist` reads `current_playback["context"].get("type")`,
      which raises on a null context. */
  predicate PlaylistSafe(obs: Option<Playback>) {
    obs.Some? ==> obs.value.context.Some?
  }

  predicate PlaysPlaylist(obs: Option<Playback>)
    requires PlaylistSafe(obs)
  {
    obs.Some? && obs.value.context.value.kind == "playlist"
  }

  /** The `current_playlist` property: the cached playlist is kept while the
      context URI is unchanged and refetched when it changes; `calls` lists
      the URIs passed to `get_playlist_info`. */
  function CurrentPlaylist(cached: Option<PlaylistInfo>, obs: Option<Playback>, fetch: string -> PlaylistInfo): (r: Fetched<Option<PlaylistInfo>>)
    requires PlaylistSafe(obs)
    ensures !PlaysPlaylist(obs) ==> r == Fetched(None, [])
    ensures PlaysPlaylist(obs) && cached.Some? && cached.value.uri == obs.value.context.value.uri ==>
              r == Fetched(cached, [])
    ensures PlaysPlaylist(obs) && !(cached.Some? && cached.value.uri == obs.value.context.value.uri) ==>
              var uri := obs.value.context.value.uri;
              r == Fetched(Some(fetch(uri)), [uri])
  {
    if !PlaysPlaylist(obs) then Fetched(None, [])
    else
      var uri := obs.value.context.value.uri;
      if cached.None? || cached.value.uri != uri then Fetched(Some(fetch(uri)), [uri])
      else Fetched(cached, [])
  }

  /** When the fetched playlist reports the context's URI, asking again for
      the same playback fetches nothing more. */
  lemma CurrentPlaylistStable(cached: Option<PlaylistInfo>, obs: Option<Playback>, fetch: string -> PlaylistInfo)
    requires PlaylistSafe(obs)
    requires PlaysPlaylist(obs) ==> fetch(obs.value.context.value.uri).uri == obs.value.context.value.uri
    ensures var first := CurrentPlaylist(cached, obs, fetch);
            CurrentPlaylist(first.value, obs, fetch) == Fetched(first.value, [])
  {
  }

  /** When the fetched playlist reports another URI than the context's, a
      cache filled by that fetch never matches: this call and the next
      both fetch again. */
  lemma CurrentPlaylistRefetches(cached: Option<PlaylistInfo>, obs: Option<Playback>, fetch: string -> PlaylistInfo)
    requires PlaylistSafe(obs) && PlaysPlaylist(obs)
    requires fetch(obs.value.context.value.uri).uri != obs.value.context.value.uri
    requires cached.Some? ==> cached.value == fetch(obs.value.context.value.uri)
    ensures var first := CurrentPlaylist(cached, obs, fetch);
            && first.calls == [obs.value.context.value.uri]
            && CurrentPlaylist(first.value, obs, fetch).calls == [obs.value.context.value.uri]
  {
  }

  /** The three display texts. */
  datatype Display = Display(track: string, artists: string, playlist: string)

  const Placeholders := Display("No Track", "No Artists", "No playlist")

  /** One call of `get_current_track_info`: the display and the caches it
      leaves behind. */
  datatype Refresh = Refresh(display: Display, track: Option<TrackInfo>, playlist: Option<PlaylistInfo>)

  /** `get_current_track_info`. Each property reads the playback afresh, so
      the track and the playlist are decided on two observations. */
  function GetCurrentTrackInfo(
    trackCache: Option<TrackInfo>, playlistCache: Option<PlaylistInfo>,
    obsForTrack: Option<Playback>, obsForPlaylist: Option<Playback>,
    fetchTrack: string -> TrackDetails, fetchPlaylist: string -> PlaylistInfo): (r: Refresh)
    requires PlaylistSafe(obsForPlaylist)
    ensures r.display.track == (if r.track.Some? then r.track.value.name else Placeholders.track)
    ensures r.display.artists == (if r.track.Some? then r.track.value.artists else Placeholders.artists)
    ensures r.display.playlist == (if r.playlist.Some? then r.playlist.value.name else Placeholders.playlist)
    ensures !PlaysTrack(obsForTrack) ==> r.track.None?
    ensures PlaysTrack(obsForTrack) ==> r.track.Some? && r.track.value.id == obsForTrack.value.item.id
    ensures !PlaysPlaylist(obsForPlaylist) ==> r.playlist.None?
    ensures PlaysPlaylist(obsForPlaylist) ==> r.playlist.Some?
    ensures r.track == CurrentTrack(trackCache, obsForTrack, fetchTrack).value
    ensures r.playlist == CurrentPlaylist(playlistCache, obsForPlaylist, fetchPlaylist).value
  {
    var track := CurrentTrack(trackCache, obsForTrack, fetchTrack).value;
    var playlist := CurrentPlaylist(playlistCache, obsForPlaylist, fetchPlaylist).value;
    var shown := Placeholders;
    var shown := if track.Some? then shown.(track := track.value.name, artists := track.value.artists) else shown;
    var shown := if playlist.Some? then shown.(playlist := playlist.value.name) else shown;
    Refresh(shown, track, playlist)
  }

  /** With nothing playing, all three fields fall back to their placeholders. */
  lemma NothingPlayingShowsPlaceholders(
    trackCache: Option<TrackInfo>, playlistCache: Option<PlaylistInfo>,
    fetchTrack: string -> TrackDetails, fetchPlaylist: string -> PlaylistInfo)
    ensures GetCurrentTrackInfo(trackCache, playlistCache, None, None, fetchTrack, fetchPlaylist) ==
              Refresh(Placeholders, None, None)
  {
  }

  /** The track cache holds what `get_track_info` gives for its id: it
      starts out `None` and is only ever filled by that call. */
  ghost predicate TrackCacheFromFetch(c: Option<TrackInfo>, fetch: string -> TrackDetails) {
    c.Some? ==> c.value == GetTrackInfo(c.value.id, fetch)
  }

  /** The playlist cache holds what `get_playlist_info` gives for its URI. */
  ghost predicate PlaylistCacheFromFetch(c: Option<PlaylistInfo>, fetch: string -> PlaylistInfo) {
    c.Some? ==> c.value == fetch(c.value.uri)
  }

  /** `current_track` keeps its cache one that `get_track_info` filled. */
  lemma CurrentTrackKeepsCacheFromFetch(cached: Option<TrackInfo>, obs: Option<Playback>, fetch: string -> TrackDetails)
    requires TrackCacheFromFetch(cached, fetch)
    ensures TrackCacheFromFetch(CurrentTrack(cached, obs, fetch).value, fetch)
  {
  }

  /** Fetching the URI a fetched playlist reports gives that playlist
      again: the URI `sp.playlist` reports is a fixed point. */
  ghost predicate ReportedUriStable(fetch: string -> PlaylistInfo) {
    forall u :: fetch(fetch(u).uri) == fetch(u)
  }

  /** `current_playlist` keeps its cache one that `get_playlist_info`
      filled, provided the URI a fetched playlist reports is stable. */
  lemma CurrentPlaylistKeepsCacheFromFetch(cached: Option<PlaylistInfo>, obs: Option<Playback>, fetch: string -> PlaylistInfo)
    requires PlaylistSafe(obs)
    requires PlaylistCacheFromFetch(cached, fetch)
    requires ReportedUriStable(fetch)
    ensures PlaylistCacheFromFetch(CurrentPlaylist(cached, obs, fetch).value, fetch)
  {
  }

  /** A display built from caches that each hold what the fetch gives for
      the cache's own key is the display a cold start would build. The
      playlist cache need not meet this hypothesis: see
      `StalePlaylistShown`. */
  lemma WarmCacheShowsColdDisplay(
    trackCache: Option<TrackInfo>, playlistCache: Option<PlaylistInfo>,
    obsForTrack: Option<Playback>, obsForPlaylist: Option<Playback>,
    fetchTrack: string -> TrackDetails, fetchPlaylist: string -> PlaylistInfo)
    requires PlaylistSafe(obsForPlaylist)
    requires TrackCacheFromFetch(trackCache, fetchTrack)
    requires PlaylistCacheFromFetch(playlistCache, fetchPlaylist)
    ensures GetCurrentTrackInfo(trackCache, playlistCache, obsForTrack, obsForPlaylist, fetchTrack, fetchPlaylist).display
              == GetCurrentTrackInfo(None, None, obsForTrack, obsForPlaylist, fetchTrack, fetchPlaylist).display
  {
  }

  /** When `sp.playlist("A")` reports URI `"B"`, the cache left by a call
      in context `"A"` matches a later context `"B"`, so the name of `"A"`
      stays on screen where a cold start would show the name of `"B"`. */
  lemma StalePlaylistShown()
    ensures
      var fetch := (u: string) => if u == "A" then PlaylistInfo("B", "nameA") else PlaylistInfo(u, "nameB");
      var fetchTrack := (u: string) => TrackDetails("", []);
      var inA := Some(Playback(Some("track"), Item("t", "n", []), Some(Context("playlist", "A"))));
      var inB := Some(Playback(Some("track"), Item("t", "n", []), Some(Context("playlist", "B"))));
      var cache := CurrentPlaylist(None, inA, fetch).value;
      && !PlaylistCacheFromFetch(cache, fetch)
      && GetCurrentTrackInfo(None, cache, inB, inB, fetchTrack, fetch).display.playlist == "nameA"
      && GetCurrentTrackInfo(None, None, inB, inB, fetchTrack, fetch).display.playlist == "nameB"
  {
  }

  /** A playing track shows the name fetched for the playing id, whichever
      cache `current_track` has built up before. */
  lemma PlayingTrackShown(
    trackCache: Option<TrackInfo>, playlistCache: Option<PlaylistInfo>,
    obsForTrack: Option<Playback>, obsForPlaylist: Option<Playback>,
    fetchTrack: string -> TrackDetails, fetchPlaylist: string -> PlaylistInfo)
    requires PlaylistSafe(obsForPlaylist)
    requires PlaysTrack(obsForTrack)
    requires TrackCacheFromFetch(trackCache, fetchTrack)
    ensures GetCurrentTrackInfo(trackCache, playlistCache, obsForTrack, obsForPlaylist, fetchTrack, fetchPlaylist).display.track
              == fetchTrack(obsForTrack.value.item.id).name
  {
  }

  /** The keystroke handler's state: the status line and the typed input. */
  datatype Input = Input(status: string, currentInput: string)

  /** `handle_input`: a single-character key is echoed on the status line
      and appended to the input; any longer key name is ignored. */
  function HandleInput(ui: Input, key: string): (r: Input)
    ensures |key| == 1 ==> r.currentInput == ui.currentInput + key && r.status == key + " pressed"
    ensures |key| != 1 ==> r == ui
  {
    if |key| == 1 then Input(key + " pressed", ui.currentInput + key) else ui
  }

  /** Feeding keys one at a time. */
  function HandleKeys(ui: Input, keys: seq<string>): Input
    decreases |keys|
  {
    if |keys| == 0 then ui else HandleKeys(HandleInput(ui, keys[0]), keys[1..])
  }

  /** The single-character keys among `keys`, concatenated. */
  function Typed(keys: seq<string>): string
    decreases |keys|
  {
    if |keys| == 0 then ""
    else (if |keys[0]| == 1 then keys[0] else "") + Typed(keys[1..])
  }

  /** The input accumulates exactly the single-character keys, in order. */
  lemma {:induction false} HandleKeysTyped(ui: Input, keys: seq<string>)
    ensures HandleKeys(ui, keys).currentInput == ui.currentInput + Typed(keys)
    decreases |keys|
  {
    if |keys| > 0 {
      HandleKeysTyped(HandleInput(ui, keys[0]), keys[1..]);
      var k := if |keys[0]| == 1 then keys[0] else "";
      assert HandleInput(ui, keys[0]).currentInput == ui.currentInput + k;
      assert (ui.currentInput + k) + Typed(keys[1..]) == ui.currentInput + (k + Typed(keys[1..]));
    }
  }
}

=== FILE: state.dfy ===
/** The data the player reconciles: the playback payload reported by the
    remote player, the "clouder week" classification documents, and the
    locally held `PlayerState`. */
module State {
  import opened Wrappers

  datatype Artist = Artist(id: string, name: string)

  /** The playing item (`current_playback["item"]`). */
  datatype Item = Item(id: string, name: string, artists: seq<Artist>)

  /** The playback context (`current_playback["context"]`): its `type`
      (`"playlist"`, `"album"`, ...) and its URI. */
  datatype Context = Context(kind: string, uri: string)

  /** A non-empty playback payload. `playingType` is the optional
      `currently_playing_type` field; `context` is `None` when the remote
      reports a null context. */
  datatype Playback = Playback(playingType: Option<string>, item: Item, context: Option<Context>)

  /** What a document holds under one key: no such key, `null`, or a string. */
  datatype Field = Missing | Null | Str(s: string) {

    /** Reading the key with `get`: an absent key and a `null` both give `None`. */
    function Get(): (r: Option<string>)
      ensures r.Some? <==> Str?
      ensures Str? ==> r == Some(s)
    {
      match this
      case Str(v) => Some(v)
      case _ => None
    }
  }

  /** One value of a clouder week's `sp_playlists` dict: the three keys the
      player reads, and `otherKeys`, the number of its remaining keys. The
      entry is falsy in Python exactly when it has no key at all. */
  datatype ClouderPlaylist = ClouderPlaylist(
    spName: Field,
    clouderType: Field,
    clouderName: Field,
    otherKeys: nat)
  {
    predicate Truthy() {
      !spName.Missing? || !clouderType.Missing? || !clouderName.Missing? || otherKeys > 0
    }
  }

  /** A clouder week document. `spPlaylists` is its `sp_playlists` dict as
      (playlist id, entry) pairs in insertion order, or `None` when the
      document has no such key. */
  datatype ClouderWeek = ClouderWeek(spPlaylists: Option<seq<(string, ClouderPlaylist)>>)

  /** The playlist part of a `PlayerState`; every field defaults to `None`,
      as in the dataclass. */
  datatype PlaylistFields = PlaylistFields(
    playlistId: Option<string>,
    playlistName: Option<string>,
    isClouder: Option<bool>,
    isBasePlaylist: Option<bool>,
    // keyed by clouder name, which is `None` for an entry holding a null name
    extraPlaylists: Option<map<Option<string>, string>>)

  /** The dataclass defaults: what an empty `playlist_data` dict splats to. */
  const NoPlaylist := PlaylistFields(None, None, None, None, None)

  datatype PlayerState = PlayerState(
    trackId: string,
    trackName: string,
    artists: map<string, string>,
    playlist: PlaylistFields)

  /** How the playlist fields of a state produced by the player hang
      together: no id means no playlist data at all; an unclassified playlist
      carries only its id; a classified one is marked `True`, knows whether
      it is the base playlist, and carries extras, empty unless base. */
  ghost predicate Coherent(p: PlaylistFields) {
    && (p.playlistId.None? ==> p == NoPlaylist)
    && (p.isClouder.None? ==> p.playlistName.None? && p.isBasePlaylist.None? && p.extraPlaylists.None?)
    && (p.isClouder.Some? ==> p.isClouder == Some(true) && p.isBasePlaylist.Some? && p.extraPlaylists.Some?)
    && (p.isBasePlaylist == Some(false) ==> p.extraPlaylists == Some(map[]))
  }

  ghost predicate CoherentState(s: Option<PlayerState>) {
    s.Some? ==> Coherent(s.value.playlist)
  }
}

=== FILE: tracker.dfy ===
/** `SpotifyUI.update_player_state`: every tick reads the current playback
    and replaces the held `PlayerState` wholesale. */
module Tracker {
  import opened Wrappers
  import opened State
  import Dicts
  import Classifier

  /** `is_same_track`: a state is held and it is for the playing item. */
  predicate IsSameTrack(held: Option<PlayerState>, pb: Playback) {
    held.Some? && held.value.trackId == pb.item.id
  }

  /** The artists dict of a new state: each artist's id mapped to its name,
      built in the item's order. */
  function ArtistMap(artists: seq<Artist>): (m: map<string, string>)
    ensures m.Keys == set a | a in artists :: a.id
    ensures forall id :: id in m ==> exists i :: && 0 <= i < |artists| && artists[i] == Artist(id, m[id])
                                                 && forall j :: i < j < |artists| ==> artists[j].id != id
  {
    var key := (a: Artist) => a.id;
    var m := Dicts.Comprehension(artists, (a: Artist) => true, key, (a: Artist) => a.name);
    assert forall id :: id in m ==> id in set a | a in artists :: a.id by {
      forall id | id in m
        ensures id in set a | a in artists :: a.id
      {
        var i :| Dicts.LastKept(artists, (a: Artist) => true, key, id, i) && m[id] == artists[i].name;
        assert artists[i] in artists;
      }
    }
    assert forall a :: a in artists ==> a.id in m by {
      forall a | a in artists
        ensures a.id in m
      {
        var i :| 0 <= i < |artists| && artists[i] == a;
      }
    }
    m
  }

  /** The loop body of `update_player_state` runs without raising. */
  predicate TickSafe(held: Option<PlayerState>, obs: Option<Playback>, lookup: Classifier.Lookup) {
    obs.Some? && !IsSameTrack(held, obs.value) ==> Classifier.ClassifySafe(obs.value, held, lookup)
  }

  /** One iteration of the loop. `obs` is what `sp.current_playback()`
      returned, `None` standing for a falsy payload; `calls` lists the ids
      passed to the classification lookup. */
  function Tick(held: Option<PlayerState>, obs: Option<Playback>, lookup: Classifier.Lookup): (r: Fetched<Option<PlayerState>>)
    requires TickSafe(held, obs, lookup)
    // no playback: the state is cleared
    ensures obs.None? ==> r == Fetched(None, [])
    // the same track: nothing changes and nothing is looked up
    ensures obs.Some? && IsSameTrack(held, obs.value) ==> r == Fetched(held, [])
    // a new track: a state for the playing item, its artists and the classified playlist
    ensures obs.Some? && !IsSameTrack(held, obs.value) ==>
              var item := obs.value.item;
              && r.value.Some?
              && r.value.value.trackId == item.id
              && r.value.value.trackName == item.name
              && r.value.value.artists.Keys == (set a | a in item.artists :: a.id)
              && (forall id :: id in r.value.value.artists ==> Artist(id, r.value.value.artists[id]) in item.artists)
              && r.value.value.playlist == Classifier.GetPlaylistData(obs.value, held, lookup).value
              && r.calls == Classifier.GetPlaylistData(obs.value, held, lookup).calls
  {
    match obs
    case None => Fetched(None, [])
    case Some(pb) =>
      if IsSameTrack(held, pb) then Fetched(held, [])
      else
        var data := Classifier.GetPlaylistData(pb, held, lookup);
        Fetched(Some(PlayerState(pb.item.id, pb.item.name, ArtistMap(pb.item.artists), data.value)), data.calls)
  }

  /** A state built from a non-playlist context has every playlist field at
      its default, without a lookup. */
  lemma NonPlaylistContextClears(held: Option<PlayerState>, pb: Playback, lookup: Classifier.Lookup)
    requires TickSafe(held, Some(pb), lookup)
    requires !IsSameTrack(held, pb)
    requires pb.context.Some? && pb.context.value.kind != "playlist"
    ensures Tick(held, Some(pb), lookup).value.value.playlist == NoPlaylist
    ensures Tick(held, Some(pb), lookup).calls == []
  {
  }

  /** A new track in the held playlist keeps the held classification and
      does not consult the lookup. */
  lemma SamePlaylistReused(held: Option<PlayerState>, pb: Playback, lookup: Classifier.Lookup)
    requires TickSafe(held, Some(pb), lookup)
    requires !IsSameTrack(held, pb)
    requires pb.context.Some? && pb.context.value.kind == "playlist"
    requires Classifier.Reuses(held, Classifier.PlaylistId(pb.context.value))
    ensures Tick(held, Some(pb), lookup).value.value.playlist == held.value.playlist
    ensures Tick(held, Some(pb), lookup).calls == []
  {
  }

  /** Ticks preserve the coherence of the playlist fields. */
  lemma TickCoherent(held: Option<PlayerState>, obs: Option<Playback>, lookup: Classifier.Lookup)
    requires TickSafe(held, obs, lookup)
    requires CoherentState(held)
    ensures CoherentState(Tick(held, obs, lookup).value)
  {
    if obs.Some? && !IsSameTrack(held, obs.value) {
      Classifier.GetPlaylistDataCoherent(obs.value, held, lookup);
    }
  }

  /** Observing the same playback twice is the same as observing it once:
      the second tick changes nothing and looks nothing up. */
  lemma TickIdempotent(held: Option<PlayerState>, obs: Option<Playback>, lookup: Classifier.Lookup)
    requires TickSafe(held, obs, lookup)
    ensures TickSafe(Tick(held, obs, lookup).value, obs, lookup)
    ensures Tick(Tick(held, obs, lookup).value, obs, lookup) == Fetched(Tick(held, obs, lookup).value, [])
  {
  }

  /** The loop of `update_player_state` runs over these observations
      without its body raising. */
  ghost predicate RunSafe(held: Option<PlayerState>, obs: seq<Option<Playback>>, lookup: Classifier.Lookup)
    decreases |obs|
  {
    |obs| > 0 ==> TickSafe(held, obs[0], lookup) && RunSafe(Tick(held, obs[0], lookup).value, obs[1..], lookup)
  }

  /** The `while True` loop over a finite sequence of observations: the
      final state, and all lookups made, in order. */
  function Run(held: Option<PlayerState>, obs: seq<Option<Playback>>, lookup: Classifier.Lookup): (r: Fetched<Option<PlayerState>>)
    requires RunSafe(held, obs, lookup)
    ensures |r.calls| <= |obs|
    decreases |obs|
  {
    if |obs| == 0 then Fetched(held, [])
    else
      var t := Tick(held, obs[0], lookup);
      var rest := Run(t.value, obs[1..], lookup);
      Fetched(rest.value, t.calls + rest.calls)
  }

  /** After the loop, the held state reflects the last observation: cleared
      when it reported no playback, and otherwise a state for its item. */
  lemma {:induction false} RunFollowsLastObservation(held: Option<PlayerState>, obs: seq<Option<Playback>>, lookup: Classifier.Lookup)
    requires |obs| > 0 && RunSafe(held, obs, lookup)
    ensures obs[|obs| - 1].None? ==> Run(held, obs, lookup).value.None?
    ensures obs[|obs| - 1].Some? ==>
              Run(held, obs, lookup).value.Some? &&
              Run(held, obs, lookup).value.value.trackId == obs[|obs| - 1].value.item.id
    decreases |obs|
  {
    if |obs| > 1 {
      RunFollowsLastObservation(Tick(held, obs[0], lookup).value, obs[1..], lookup);
      assert obs[1..][|obs[1..]| - 1] == obs[|obs| - 1];
    }
  }

  /** Every observation plays track `trackId`. */
  predicate AllPlay(obs: seq<Option<Playback>>, trackId: string) {
    forall i :: 0 <= i < |obs| ==> obs[i].Some? && obs[i].value.item.id == trackId
  }

  /** Once a state for the playing track is held, repeated reports of that
      track leave it untouched and make no lookup. */
  lemma {:induction false} RunHeldTrack(held: Option<PlayerState>, obs: seq<Option<Playback>>, lookup: Classifier.Lookup)
    requires held.Some? && AllPlay(obs, held.value.trackId)
    ensures RunSafe(held, obs, lookup)
    ensures Run(held, obs, lookup) == Fetched(held, [])
    decreases |obs|
  {
    if |obs| > 0 {
      assert AllPlay(obs[1..], held.value.trackId);
      RunHeldTrack(held, obs[1..], lookup);
    }
  }

  /** Over ticks that all report the same track, the state is replaced at
      most once (by the first tick) and the lookup is asked at most once. */
  lemma RunSameTrack(held: Option<PlayerState>, obs: seq<Option<Playback>>, trackId: string, lookup: Classifier.Lookup)
    requires |obs| > 0 && AllPlay(obs, trackId)
    requires TickSafe(held, obs[0], lookup)
    ensures RunSafe(held, obs, lookup)
    ensures Run(held, obs, lookup) == Tick(held, obs[0], lookup)
    ensures |Run(held, obs, lookup).calls| <= 1
  {
    var t := Tick(held, obs[0], lookup);
    assert AllPlay(obs[1..], trackId);
    RunHeldTrack(t.value, obs[1..], lookup);
    assert t.calls + [] == t.calls;
  }
}

=== FILE: uri.dfy ===
/** Spotify URIs such as `spotify:playlist:37i9dQZF1DX` and Python's
    `uri.split(":")[-1]`. */
module Uri {

  /** The text after the last `:` of `s` (all of `s` when it has no `:`). */
  function LastSegment(s: string): (r: string)
    ensures ':' !in r
    ensures |r| <= |s|
    decreases |s|
  {
    if |s| == 0 then ""
    else if s[|s| - 1] == ':' then ""
    else LastSegment(s[..|s| - 1]) + [s[|s| - 1]]
  }

  /** `s` ends with its last segment, and the character just before the
      segment, if any, is the `:` it was split at. */
  lemma {:induction false} LastSegmentIsSuffix(s: string)
    ensures var r := LastSegment(s);
            && r == s[|s| - |r|..]
            && (|r| < |s| ==> s[|s| - |r| - 1] == ':')
    decreases |s|
  {
    if |s| > 0 && s[|s| - 1] != ':' {
      var init := s[..|s| - 1];
      LastSegmentIsSuffix(init);
      var t := LastSegment(init);
      var r := LastSegment(s);
      assert r == t + [s[|s| - 1]];
      assert s[|s| - |r|..] == init[|init| - |t|..] + [s[|s| - 1]];
    }
  }

  /** These properties pin the segment down: any suffix of `s` free of `:`
      and starting right after a `:` (or at the start) is it. */
  lemma LastSegmentUnique(s: string, r: string)
    requires ':' !in r
    requires |r| <= |s| && r == s[|s| - |r|..]
    requires |r| < |s| ==> s[|s| - |r| - 1] == ':'
    ensures r == LastSegment(s)
  {
    var t := LastSegment(s);
    LastSegmentIsSuffix(s);
    var n := |s| - |t|;
    assert n > 0 ==> s[n - 1] == ':';
    ColonFreeSuffix(s, t);
    ColonFreeSuffix(s, r);
    assert |t| <= |r| by {
      if |r| < |s| {
        assert s[|s| - |r| - 1] == ':';
      }
    }
    assert |r| <= |t| by {
      if n > 0 {
        assert s[n - 1] == ':';
      }
    }
  }

  /** No position of `s` inside a `:`-free suffix holds a `:`. */
  lemma ColonFreeSuffix(s: string, r: string)
    requires ':' !in r
    requires |r| <= |s| && r == s[|s| - |r|..]
    ensures forall k :: |s| - |r| <= k < |s| ==> s[k] != ':'
  {
    forall k | |s| - |r| <= k < |s|
      ensures s[k] != ':'
    {
      assert s[k] == r[k - (|s| - |r|)];
    }
  }

  /** Splitting the segment off leaves a prefix that is empty or ends in
      `:`, so `s` is that prefix followed by the segment. */
  lemma LastSegmentSplits(s: string)
    ensures var r := LastSegment(s);
            var p := s[..|s| - |r|];
            s == p + r && (p == "" || p[|p| - 1] == ':')
  {
    LastSegmentIsSuffix(s);
  }
}

=== FILE: wrappers.dfy ===
/** Small value wrappers shared by the player model. */
module Wrappers {

  /** Python's `x | None`: a value that may be absent. */
  datatype Option<+T> = None | Some(value: T)

  /** A value computed with the help of an external service, together with the
      arguments, in call order, that were passed to that service on the way. */
  datatype Fetched<+T> = Fetched(value: T, calls: seq<string>)
}
